=== FILE: README.md ===
# thriven-Blog: a Dafny model of the blog's request handlers and editor logic

thriven-Blog is a small publishing site. Readers browse posts by category.
An administrator logs in, writes posts in an HTML-aware editor, and manages
them. This project models the parts of the site that decide what is stored,
what is answered and what is shown:

- **`/api/blog`** (`BlogRoute`): the GET, POST, PUT and DELETE handlers. GET
  is a function from the store to a reply; POST, PUT and DELETE each take a
  store and a request to a new store, a reply and the list of blob keys
  written. The collection is a map from identifier to post plus the
  order in which the store lists it. Everything outside the handler is an
  oracle value (`Backend`): whether the connection helper or a query fails
  (and with which message), and what the blob service answers for each key.
- **Storage keys** (`Media`, `Decimal`): `blogs/${Date.now()}_${name}` for a
  thumbnail, `authors/${Date.now()}_author_${name}` for an author picture and
  `description/${Date.now()}_${name}` for a body image, with every whitespace
  run in the name replaced by `_`.
- **`/api/upload`** (`UploadRoute`): one body image stored under
  `description/`.
- **`/api/login`** and **the middleware** (`LoginRoute`, `Middleware`,
  `AccessControl`): the credential check, the session cookie's attributes,
  logout, and the `/admin` guard. The guard is also composed with a browser
  cookie jar.
- **The admin console** (`AdminPage`): the toolbar's `insertTag` splice, the
  insertion of uploaded body images at the cursor, the form a submit sends,
  and the draft reset after a successful submit.
- **The reader's list** (`BlogList`, `BlogItem`): how a fetched listing
  replaces the shown posts, the category filter, and the tag stripper of the
  preview excerpt.

Clocks (`Date.now()`), the generated document identifier, the store and the
blob service are parameters. Nothing is read from the environment except the
`Env` value passed to the login handler.

Three consequences of the code are worth stating:

- A successful POST answers status 200, because app/api/blog/route.js:68
  passes no status to the response.
- A listing that failed degrades to `{ blogs: [], error: "Database
  connection failed - falling back to static data" }` with status 200
  (app/api/blog/route.js:13). An empty array is truthy in JavaScript, so the
  reader's list (components/BlogList.jsx:19-21) replaces whatever it showed
  with the empty list (`BlogList.StoreOutageEmptiesList`).
- The middleware's own prefix test (middleware.js:7) also covers paths such
  as `/administrator`. The `/admin/:path*` matcher (middleware.js:22) never
  hands those to it (`Middleware.PrefixTestIsLooserThanMatcher`).

## Model

| member | source | states |
|---|---|---|
| Forms.UploadIsFile | app/api/blog/route.js:34 | the handlers' rejection test (a falsy value or a string) passes exactly the file values |
| Decimal.DecimalString | app/api/blog/route.js:39 | `${Date.now()}` renders a reading as a non-empty digit string with no leading zero |
| Decimal.ParseDecimalString | app/api/blog/route.js:39 | reading back the decimal text of a clock reading gives the reading |
| Decimal.DecimalStringInjective | app/api/blog/route.js:39 | distinct clock readings render as distinct digit strings |
| Media.NormalizeName | app/api/blog/route.js:39 | the normalised file name contains no whitespace and is no longer than the original |
| Media.NormalizeKeepsVisible | app/api/blog/route.js:39 | normalising keeps every character that is neither whitespace nor `_`, in order, and adds none |
| Media.NormalizeIdentity | app/api/blog/route.js:39 | a name without whitespace is stored under its own spelling |
| Media.NormalizeIdempotent | app/api/blog/route.js:39 | normalising a normalised name changes nothing |
| Media.ReplaceWhitespaceRuns | app/api/blog/route.js:39 | the left-to-right scan that collapses each whitespace run to one `_` computes the normalised name |
| Media.BlogImageKey | app/api/blog/route.js:39-40 | a thumbnail key lies under `blogs/`, holds no whitespace and ends with the normalised file name |
| Media.AuthorImageKey | app/api/blog/route.js:48-49 | an author-picture key lies under `authors/`, holds no whitespace and ends with `author_` and the normalised file name |
| Media.DescriptionImageKey | app/api/upload/route.js:13-16 | a body-image key lies under `description/`, holds no whitespace and ends with the normalised file name |
| Media.StorageKey | app/api/blog/route.js:39-40 | a key starts with its folder and ends with the rest of the name; it holds no whitespace when neither part does |
| Media.StorageKeyInjective | app/api/blog/route.js:39 | within a folder, a key determines the clock reading and the rest of the name |
| Media.ImageKeysInjective | app/api/blog/route.js:39-49 | two files of one kind share a key only for the same millisecond and names that normalise alike |
| Media.FoldersDisjoint | app/api/blog/route.js:40 | thumbnail, author-picture and body-image keys never coincide |
| BlogRoute.List | app/api/blog/route.js:6-15 | always 200; the advisory error appears exactly when the connection or the query fails, and then the list is empty; otherwise every stored post in the store's order |
| BlogRoute.ListNamesEachPostOnce | app/api/blog/route.js:9-10 | a successful listing names every stored post exactly once, with its stored fields |
| BlogRoute.ServerErrorText | app/api/blog/route.js:71-74 | the connection hint is answered exactly when the error text contains `ENOTFOUND` or `timeout`; any other text is echoed after "Server Error: " |
| BlogRoute.ConnectivityFailuresGetHint | app/api/blog/route.js:71-74 | any error text containing `ENOTFOUND` or `timeout` is answered with the connection hint |
| BlogRoute.Create | app/api/blog/route.js:17-78 | the 400 for a missing field and for a missing image file; the 500 with the classified error text for a failed connection, a failed upload or a failed save; success exactly when the connection, both uploads and the write go through; the new record's fields, including the author picture's file / string / default choice; nothing uploaded before both checks pass; a failure leaves the store unchanged; the store invariant is kept |
| BlogRoute.Update | app/api/blog/route.js:99-145 | the 400 exactly without an id and the 404 only for a well-formed, unknown id after a successful read; every other failure answers 500 "Failed to update blog"; success exactly when every step goes through, with the keys uploaded; the text fields are overwritten, the thumbnail changes only for a new file, the author picture takes a new file, else a non-empty string, else keeps its value; other posts and the order are unchanged |
| BlogRoute.Without | app/api/blog/route.js:90 | removing an id from the listing order keeps every other id, once each, in their original relative order |
| BlogRoute.Delete | app/api/blog/route.js:80-96 | the 400 exactly without an id; every other failure answers 500 "Failed to delete blog"; success exactly when connected and written; the post is gone, every other post is unchanged and keeps its place in the listing order; an unknown id still succeeds and changes nothing |
| UploadRoute.Upload | app/api/upload/route.js:4-28 | a non-file is refused with 400 and nothing stored; a file is stored under its `description/` key, and the reply carries the stored URL, or 500 when the blob service fails |
| UploadRoute.DistinctUploadsDistinctKeys | app/api/upload/route.js:13-16 | uploads at different milliseconds, or of names that normalise differently, go to different keys |
| LoginRoute.Login | app/api/login/route.js:3-26 | 200 exactly when both fields equal the configured secrets; the session cookie's value and attributes, `secure` exactly in production; otherwise 401 and no cookie |
| LoginRoute.UnsetSecretsAcceptOmittedFields | app/api/login/route.js:4-9 | with neither secret configured, a body that omits both fields is accepted |
| LoginRoute.Logout | app/api/login/route.js:29-33 | logout always succeeds and sets an empty session cookie with max-age 0 |
| Middleware.Guard | middleware.js:3-18 | a protected path without the session marker is redirected to `/login`; a request with the marker, or outside `/admin`, continues |
| Middleware.Handle | middleware.js:21-23 | unmatched paths continue; a matched path continues exactly when the session marker is present |
| Middleware.MatchedPathsAreProtected | middleware.js:7-22 | every path the matcher selects passes the guard's prefix test |
| Middleware.PrefixTestIsLooserThanMatcher | middleware.js:7-22 | `/administrator` fails the prefix test's intent: the guard would redirect it, but the matcher never selects it |
| AccessControl.SessionAfter | app/api/login/route.js:14-31 | a reply that sets nothing leaves the cookie; a max-age of zero or less removes it; otherwise it takes the set value |
| AccessControl.LoginOpensAdmin | app/api/login/route.js:14-20 | after a successful login every admin request passes the guard |
| AccessControl.FailedLoginKeepsAdminClosed | app/api/login/route.js:25 | a failed login answers 401 and an admin request without a session is still redirected |
| AccessControl.LogoutClosesAdmin | app/api/login/route.js:29-33 | after logout every admin request is redirected, whether the browser drops or keeps the emptied cookie |
| AdminPage.Substring | app/admin/page.jsx:141 | within bounds, `substring` is the slice; it is never longer than the string |
| AdminPage.InsertTag | app/admin/page.jsx:132-160 | the text before the selection and after it are kept, the fragment sits between them, and the cursor lands right after the fragment |
| AdminPage.InsertTagSplices | app/admin/page.jsx:150-153 | the edited text is prefix, formatted fragment, suffix |
| AdminPage.Formatted | app/admin/page.jsx:144-148 | every button except the list wraps its input between fixed opening and closing markup; the list gives the fixed two-item list; any other tag gives nothing |
| AdminPage.InsertTagWrapsSelection | app/admin/page.jsx:141-158 | with a selection, the wrapping buttons wrap exactly the selected text and the cursor follows the closing markup |
| AdminPage.InsertTagAtCursor | app/admin/page.jsx:141-158 | without a selection, the wrapped placeholder is inserted at the cursor and nothing is deleted |
| AdminPage.InsertListIgnoresSelection | app/admin/page.jsx:146-153 | the list button replaces the selection by the fixed two-item list |
| AdminPage.ImgTag | app/admin/page.jsx:188 | each image tag starts a new line with `<img src="`, has exactly the URL as its `src` value and ends with a newline |
| AdminPage.ImagesHtml | app/admin/page.jsx:188 | the markup is empty exactly when no URL was collected, and one URL gives exactly its one tag |
| AdminPage.ImagesHtmlAppend | app/admin/page.jsx:188 | the markup of a batch is the markup of its parts, in upload order; with the one-URL case of `ImagesHtml` this gives one tag per URL |
| AdminPage.AnswerOf | app/admin/page.jsx:176-178 | a reply counts as answered exactly when its status is 2xx, and a successful upload yields its URL |
| AdminPage.CollectUrls | app/admin/page.jsx:170-180 | a rejected request abandons the batch; otherwise only non-empty URLs are collected |
| AdminPage.CollectOne | app/admin/page.jsx:176-179 | one answer: a rejection abandons the batch; an answer contributes its URL exactly when it is a non-empty string |
| AdminPage.CollectUrlsAppend | app/admin/page.jsx:173-180 | the URLs of a batch are those of its first part followed by those of the rest, and a rejection in either part abandons the batch |
| AdminPage.CollectAllUrls | app/admin/page.jsx:173-180 | when every upload answers a URL, all URLs are collected in order |
| AdminPage.InsertImages | app/admin/page.jsx:182-189 | the images are spliced in at the cursor without deleting anything; a rejection or an empty batch changes nothing |
| AdminPage.FailedUploadAbandonsBatch | app/admin/page.jsx:172-193 | one failed upload discards the images uploaded before it |
| AdminPage.SubmittedForm | app/admin/page.jsx:80-90 | the form carries the edited post's id exactly when editing; the picked thumbnail file, the stored URL or the string "false"; the picked author file, if any; and the draft's text fields |
| AdminPage.SubmitAnswerOf | app/admin/page.jsx:92-113 | the request throws exactly for a non-2xx reply; a 2xx reply yields its `msg` (publish, update) or its `error` |
| AdminPage.AfterSubmit | app/admin/page.jsx:97-109 | a success clears the draft, the picked files and the edit marker, and an edit returns to the manage tab; anything else keeps the state |
| AdminPage.NewPostNeedsPickedThumbnail | app/admin/page.jsx:87 | a new post whose thumbnail was never picked is refused with 400 and the draft is kept |
| AdminPage.EditKeepsThumbnailButTakesAuthorImg | app/admin/page.jsx:57-69 | saving an edit without a new thumbnail keeps the stored one, the author picture takes the draft's non-empty string, and the editor returns to the list |
| BlogList.Shown | components/BlogList.jsx:68 | for any button but "All", a post is shown exactly when its category is that very string |
| BlogList.Filter | components/BlogList.jsx:68 | the shown posts are a subsequence of the list and all match the menu |
| BlogList.FilterAllIsIdentity | components/BlogList.jsx:68 | the "All" button shows the whole list |
| BlogList.FilterCounts | components/BlogList.jsx:68 | each post of the chosen category appears as often as in the list; every other post is dropped |
| BlogList.FilterSelectsCategory | components/BlogList.jsx:68 | a post is shown exactly when it is listed and has the chosen category |
| BlogList.ApplyFetch | components/BlogList.jsx:19-21 | any reply carrying `blogs` replaces the list, even an empty one; otherwise the list stays |
| BlogList.FetchAnswerOf | components/BlogList.jsx:17-21 | a non-2xx reply is a failed request; a 2xx listing yields its posts |
| BlogList.StoreOutageEmptiesList | components/BlogList.jsx:19-21 | when the store is unreachable the reader shows no posts |
| BlogList.FetchShowsStore | components/BlogList.jsx:19-21 | otherwise the reader shows every stored post in the store's order |
| BlogItem.SkipTag | components/BlogItem.jsx:36 | after a `<`, exactly the text through the first `>` is consumed, or all of it when no `>` follows |
| BlogItem.StripTags | components/BlogItem.jsx:36 | the excerpt contains no `<` and only deletes characters of the description |
| BlogItem.StripKeepsPlainPrefix | components/BlogItem.jsx:36 | text before the first `<` is kept verbatim, stray `>` included |
| BlogItem.StripIdentity | components/BlogItem.jsx:36 | text without `<` is unchanged |
| BlogItem.StripIdempotent | components/BlogItem.jsx:36 | stripping twice removes nothing more |
| BlogItem.StripRemovesClosedTag | components/BlogItem.jsx:36 | a complete tag disappears with its brackets and the surrounding text stays |
| BlogItem.StripUnterminated | components/BlogItem.jsx:36 | a `<` that is never closed deletes everything after it |
| BlogItem.StripTagsScan | components/BlogItem.jsx:36 | the regular-expression engine's left-to-right scan computes the excerpt |

## Left out

- Connection caching in the connection helper and the health route: lib/config/ConnectDB.js and app/api/health/route.js are not part of this model. A failing connection is the `connectError` oracle.
- The document schema: lib/model/BlogModel.js is not part of this model. Posts hold the submitted form values verbatim, and any validation or cast failure of the store is the `writeError` oracle.
- Identifier syntax: a DELETE or PUT id that is not a valid document identifier makes the query throw. This is folded into the `readError` and `writeError` oracles. The one case the model decides is a file sent as the PUT id, which answers 500.
- BlogRoute.Create: requires a fresh identifier, which stands for the identifier the store generates.
- BlogRoute.List: the listing order is taken as the order of insertion. The store's natural order is not specified further.
- Failures to parse the request body (`formData()` or `json()` throwing): not modelled. They are answered by each handler's catch branch, except in the login handler, which has none.
- LoginRoute.Login: credentials are strings or omitted. Non-string JSON values compared with `===` are not modelled.
- Cookie library defaults (path, SameSite when not given) and the redirect URL's origin: not modelled. The redirect is identified by its path.
- `Date.now()` is any natural number. Its rendering is exact for readings below 10^21, where JavaScript switches to exponent notation.
- Characters are Dafny `char`s. UTF-16 surrogate pairs in file names and descriptions are not distinguished.
- React state wiring, effects, timers, focus restoration and toasts: not modelled. The stale `data` closure in `insertTag` is taken as the current description.
- The tab-switch and cancel-edit resets (app/admin/page.jsx:231-239 and 261): not modelled.
- The manage tab's list, delete button and `startEditing`'s copy of a post into the draft (app/admin/page.jsx:31-69), and logout navigation (app/admin/page.jsx:122-130): not modelled.
- Rendering, the post page, the about page, header, footer, home page and login page: not modelled, being presentation only.

=== FILE: access_control.dfy ===
/** How the session cookie issued by `/api/login` meets the route guard:
    the browser stores what a reply sets, and the guard reads it back. */
module AccessControl {
  import opened Wrappers
  import opened Strings
  import LoginRoute
  import Middleware

  /** The value of `admin_session` a browser holds after applying a reply's
      `Set-Cookie`: a cookie whose max-age is zero or less is removed
      (section 5.2.2 of RFC 6265), any other replaces the stored value, and a
      reply that sets nothing leaves the jar alone. */
  function SessionAfter(jar: Option<string>, setCookie: Option<LoginRoute.SetCookie>): (r: Option<string>)
    ensures setCookie.None? ==> r == jar
    ensures setCookie.Some? && setCookie.value.name == "admin_session" ==>
      (r.None? <==> setCookie.value.options.maxAge.Some? && setCookie.value.options.maxAge.value <= 0)
    ensures r.Some? && setCookie.Some? && setCookie.value.name == "admin_session" ==> r.value == setCookie.value.value
  {
    match setCookie
    case None => jar
    case Some(c) =>
      if c.name != "admin_session" then jar
      else if c.options.maxAge.Some? && c.options.maxAge.value <= 0 then None
      else Some(c.value)
  }

  /** After a successful login, every admin request passes the guard,
      whatever the browser held before. */
  lemma LoginOpensAdmin(c: LoginRoute.Credentials, env: LoginRoute.Env, jar: Option<string>, path: string)
    requires LoginRoute.Login(c, env).status == 200
    ensures Middleware.Guard(path, SessionAfter(jar, LoginRoute.Login(c, env).cookie)) == Middleware.Continue
    ensures Middleware.Handle(path, SessionAfter(jar, LoginRoute.Login(c, env).cookie)) == Middleware.Continue
  {
  }

  /** A failed login changes nothing the guard can see: an admin request
      without a session is still redirected. */
  lemma FailedLoginKeepsAdminClosed(c: LoginRoute.Credentials, env: LoginRoute.Env, jar: Option<string>, path: string)
    requires LoginRoute.Login(c, env).status != 200
    requires Middleware.IsProtectedPath(path) && jar != Some("true")
    ensures LoginRoute.Login(c, env).status == 401
    ensures Middleware.Guard(path, SessionAfter(jar, LoginRoute.Login(c, env).cookie)) == Middleware.Redirect("/login")
  {
  }

  /** After logout every admin request is redirected to the login page,
      whether the browser drops the expired cookie or keeps its empty value. */
  lemma LogoutClosesAdmin(jar: Option<string>, path: string)
    requires Middleware.IsProtectedPath(path)
    ensures Middleware.Guard(path, SessionAfter(jar, LoginRoute.Logout().cookie)) == Middleware.Redirect("/login")
    ensures Middleware.Guard(path, Some(LoginRoute.Logout().cookie.value.value)) == Middleware.Redirect("/login")
  {
  }
}

=== FILE: admin_page.dfy ===
/** The pure parts of the admin console: the tag-insertion toolbar, the
    splice of uploaded body images at the cursor, the form a submit sends,
    and the draft reset after a successful submit. */
module AdminPage {
  import opened Wrappers
  import opened Strings
  import opened Forms
  import BlogRoute
  import UploadRoute

  // ---------------------------------------------------------------- substring

  function Clamp(i: int, n: nat): (c: nat)
    ensures c <= n
  {
    if i < 0 then 0 else if i > n then n else i
  }

  /** JavaScript's `s.substring(a, b)`: both bounds are clamped to the
      string, and swapped when the first exceeds the second. */
  function Substring(s: string, a: int, b: int): (r: string)
    ensures 0 <= a <= b <= |s| ==> r == s[a..b]
    ensures |r| <= |s|
  {
    var x := Clamp(a, |s|);
    var y := Clamp(b, |s|);
    if x <= y then s[x..y] else s[y..x]
  }

  // ---------------------------------------------------------------- insertTag

  /** The text of a fresh textarea edit and where the cursor is put. */
  datatype Edit = Edit(text: string, cursor: nat)

  const Placeholder := "Text Here"
  const ListFragment := "<ul>\n  <li>Point 1</li>\n  <li>Point 2</li>\n</ul>"
  /** The toolbar's buttons. */
  const Toolbar := ["H3", "Paragraph", "Italic", "List", "Quote"]

  /** The fragment a toolbar button produces around `selected`. A tag that
      is not on the toolbar produces nothing. */
  function Formatted(tag: string, selected: string): (r: string)
    ensures tag !in Toolbar ==> r == ""
    ensures tag == "List" ==> r == ListFragment
    ensures tag in Toolbar && tag != "List" ==> r == OpenTag(tag) + selected + CloseTag(tag)
  {
    if tag == "H3" then "<h3>" + selected + "</h3>"
    else if tag == "Italic" then "<i>" + selected + "</i>"
    else if tag == "List" then ListFragment
    else if tag == "Quote" then "<blockquote>" + selected + "</blockquote>"
    else if tag == "Paragraph" then "<p>\n  " + selected + "\n</p>"
    else ""
  }

  /** `insertTag(tag)` on a description `text` whose selection runs from
      `start` to `end`: the selection (or the placeholder, when nothing is
      selected) is formatted and spliced in place of the selection, and the
      cursor lands just after the inserted fragment. */
  function InsertTag(text: string, start: nat, end: nat, tag: string): (e: Edit)
    ensures start <= end <= |text| ==>
      && start <= e.cursor <= |e.text|
      && e.text[..start] == text[..start]
      && e.text[e.cursor..] == text[end..]
      && e.text[start..e.cursor] == Formatted(tag, if start == end then Placeholder else text[start..end])
      && |e.text| == |text| - (end - start) + (e.cursor - start)
  {
    var selected := Substring(text, start, end);
    var fragment := Formatted(tag, if selected == "" then Placeholder else selected);
    var before := Substring(text, 0, start);
    var after := Substring(text, end, |text|);
    Edit(before + fragment + after, start + |fragment|)
  }

  lemma SpliceParts(s: string, i: nat, j: nat)
    requires i <= j <= |s|
    ensures s == s[..i] + s[i..j] + s[j..]
  {
  }

  /** The edited text is the text before the selection, the fragment, and
      the text after the selection. */
  lemma InsertTagSplices(text: string, start: nat, end: nat, tag: string)
    requires start <= end <= |text|
    ensures InsertTag(text, start, end, tag).text
      == text[..start] + Formatted(tag, if start == end then Placeholder else text[start..end]) + text[end..]
  {
    var e := InsertTag(text, start, end, tag);
    SpliceParts(e.text, start, e.cursor);
  }

  /** The markup before and after the wrapped text of the four wrapping
      buttons (heading, italics, quote, paragraph). */
  function OpenTag(tag: string): string {
    if tag == "H3" then "<h3>" else if tag == "Italic" then "<i>"
    else if tag == "Quote" then "<blockquote>" else "<p>\n  "
  }

  function CloseTag(tag: string): string {
    if tag == "H3" then "</h3>" else if tag == "Italic" then "</i>"
    else if tag == "Quote" then "</blockquote>" else "\n</p>"
  }

  lemma Regroup(a: string, b: string, c: string, d: string, e: string)
    ensures a + (b + c + d) + e == a + b + c + d + e
    ensures a + (b + c + d) + e == (a + b) + c + (d + e)
  {
  }

  /** With a non-empty selection, heading, italics and quote wrap exactly
      the selected text, and paragraph wraps it between indented lines. */
  lemma InsertTagWrapsSelection(text: string, start: nat, end: nat, tag: string)
    requires start < end <= |text| && tag in Toolbar && tag != "List"
    ensures InsertTag(text, start, end, tag).text
      == text[..start] + OpenTag(tag) + text[start..end] + CloseTag(tag) + text[end..]
    ensures InsertTag(text, start, end, tag).cursor
      == start + |OpenTag(tag)| + (end - start) + |CloseTag(tag)|
  {
    InsertTagSplices(text, start, end, tag);
    Regroup(text[..start], OpenTag(tag), text[start..end], CloseTag(tag), text[end..]);
  }

  /** With nothing selected, the placeholder is wrapped and inserted at the
      cursor; nothing is deleted. */
  lemma InsertTagAtCursor(text: string, at: nat, tag: string)
    requires at <= |text| && tag in Toolbar && tag != "List"
    ensures InsertTag(text, at, at, tag).text == text[..at] + OpenTag(tag) + Placeholder + CloseTag(tag) + text[at..]
    ensures InsertTag(text, at, at, tag).cursor == at + |OpenTag(tag)| + |Placeholder| + |CloseTag(tag)|
    ensures Contains(InsertTag(text, at, at, tag).text, Placeholder)
  {
    InsertTagSplices(text, at, at, tag);
    var open := OpenTag(tag);
    var close := CloseTag(tag);
    Regroup(text[..at], open, Placeholder, close, text[at..]);
    ContainsInfix(text[..at] + open, Placeholder, close + text[at..]);
  }

  /** The list button ignores the selection: the selected range is replaced
      by the fixed two-item list. */
  lemma InsertListIgnoresSelection(text: string, start: nat, end: nat)
    requires start <= end <= |text|
    ensures InsertTag(text, start, end, "List") == Edit(text[..start] + ListFragment + text[end..], start + |ListFragment|)
  {
    InsertTagSplices(text, start, end, "List");
  }

  // ---------------------------------------------------------------- body images

  /** The tag inserted for one uploaded body image. */
  function ImgTag(url: string): (t: string)
    ensures StartsWith(t, "\n<img src=\"") && t[|t| - 1] == '\n'
    ensures Contains(t, url)
    // the URL is the whole `src` value
    ensures StartsWith(t, "\n<img src=\"" + url + "\"")
  {
    var t := "\n<img src=\"" + url + ImgTail;
    ContainsInfix("\n<img src=\"", url, ImgTail);
    assert ImgTail[0] == '"';
    assert t[..|"\n<img src=\"" + url + "\""|] == "\n<img src=\"" + url + "\"";
    t
  }

  const ImgTail := "\" alt=\"blog image\" " + "className=\"rounded-2xl my-6 w-full shadow-lg\" />\n"

  /** `urls.map(ImgTag).join("")`. */
  function ImagesHtml(urls: seq<string>): (h: string)
    ensures urls == [] <==> h == ""
    ensures |urls| == 1 ==> h == ImgTag(urls[0])
    decreases |urls|
  {
    if urls == [] then "" else
      var h := ImgTag(urls[0]) + ImagesHtml(urls[1..]);
      assert |urls| == 1 ==> ImgTag(urls[0]) + "" == ImgTag(urls[0]);
      h
  }

  /** One tag per URL, in upload order: the markup of a batch is the markup
      of its parts, concatenated. */
  lemma {:induction false} ImagesHtmlAppend(a: seq<string>, b: seq<string>)
    ensures ImagesHtml(a + b) == ImagesHtml(a) + ImagesHtml(b)
    decreases |a|
  {
    if a == [] {
      assert a + b == b;
    } else {
      assert (a + b)[0] == a[0] && (a + b)[1..] == a[1..] + b;
      ImagesHtmlAppend(a[1..], b);
    }
  }

  /** What the page learns from one `POST /api/upload`: the reply's `url`
      field (absent or present), or a rejection of the request. */
  datatype UploadAnswer = Answered(url: Option<string>) | Rejected

  /** The request helper rejects every reply whose status is not 2xx. */
  function AnswerOf(r: UploadRoute.Reply): (a: UploadAnswer)
    ensures a.Answered? <==> 200 <= r.status < 300
    ensures r.status == 200 && r.body.Uploaded? ==> a == Answered(Some(r.body.url))
  {
    if 200 <= r.status < 300 then
      (match r.body
       case Uploaded(_, url) => Answered(Some(url))
       case Failed(_) => Answered(None))
    else Rejected
  }

  /** The URLs collected by the sequential upload loop: each answer with a
      non-empty `url`, in order; `None` when a request is rejected, which
      abandons the whole batch. */
  function CollectUrls(answers: seq<UploadAnswer>): (r: Option<seq<string>>)
    ensures r.None? <==> Rejected in answers
    ensures r.Some? ==> |r.value| <= |answers| && forall u :: u in r.value ==> u != ""
    decreases |answers|
  {
    if answers == [] then Some([])
    else match answers[0]
      case Rejected => None
      case Answered(u) =>
        match CollectUrls(answers[1..])
        case None => None
        case Some(rest) => Some((if u.Some? && u.value != "" then [u.value] else []) + rest)
  }

  /** Every upload answered with a URL: the URLs are collected in order. */
  lemma {:induction false} CollectAllUrls(urls: seq<string>)
    requires forall u :: u in urls ==> u != ""
    ensures CollectUrls(seq(|urls|, i requires 0 <= i < |urls| => Answered(Some(urls[i])))) == Some(urls)
    decreases |urls|
  {
    var answers := seq(|urls|, i requires 0 <= i < |urls| => Answered(Some(urls[i])));
    if urls != [] {
      assert answers[0] == Answered(Some(urls[0])) && urls[0] in urls;
      assert answers[1..] == seq(|urls[1..]|, i requires 0 <= i < |urls[1..]| => Answered(Some(urls[1..][i])));
      assert forall u :: u in urls[1..] ==> u in urls;
      CollectAllUrls(urls[1..]);
      assert [urls[0]] + urls[1..] == urls;
    }
  }

  /** One answer on its own: a rejection abandons, an answer contributes
      its URL exactly when it is a non-empty string. */
  lemma CollectOne(a: UploadAnswer)
    ensures a.Rejected? ==> CollectUrls([a]) == None
    ensures a.Answered? ==> CollectUrls([a]) == Some(if a.url.Some? && a.url.value != "" then [a.url.value] else [])
  {
    assert [a][0] == a && [a][1..] == [];
    if a.Answered? {
      var head: seq<string> := if a.url.Some? && a.url.value != "" then [a.url.value] else [];
      assert head + [] == head;
    }
  }

  /** The loop runs in order: the URLs of a batch are the URLs of its first
      part followed by those of the rest, and a rejection in either part
      abandons the whole batch. */
  lemma {:induction false} CollectUrlsAppend(a: seq<UploadAnswer>, b: seq<UploadAnswer>)
    ensures CollectUrls(a + b) ==
      if CollectUrls(a).None? || CollectUrls(b).None? then None
      else Some(CollectUrls(a).value + CollectUrls(b).value)
    decreases |a|
  {
    if a == [] {
      assert a + b == b;
      if CollectUrls(b).Some? {
        assert [] + CollectUrls(b).value == CollectUrls(b).value;
      }
    } else {
      assert (a + b)[0] == a[0] && (a + b)[1..] == a[1..] + b;
      CollectUrlsAppend(a[1..], b);
      if a[0].Answered? && CollectUrls(a[1..]).Some? && CollectUrls(b).Some? {
        var u := a[0].url;
        var head: seq<string> := if u.Some? && u.value != "" then [u.value] else [];
        assert head + (CollectUrls(a[1..]).value + CollectUrls(b).value)
          == (head + CollectUrls(a[1..]).value) + CollectUrls(b).value;
      }
    }
  }

  /** `handleDescImageUpload`: the collected images are spliced in at the
      cursor; nothing is deleted, and nothing changes when no URL was
      collected or a request was rejected. */
  function InsertImages(text: string, cursor: nat, answers: seq<UploadAnswer>): (r: string)
    ensures Rejected in answers ==> r == text
    ensures CollectUrls(answers) == Some([]) ==> r == text
    ensures cursor <= |text| && CollectUrls(answers).Some? ==>
      && var html := ImagesHtml(CollectUrls(answers).value);
      && r == text[..cursor] + html + text[cursor..]
      && r[..cursor] == text[..cursor]
      && r[cursor + |html|..] == text[cursor..]
  {
    match CollectUrls(answers)
    case None => text
    case Some(urls) =>
      if |urls| > 0 then Substring(text, 0, cursor) + ImagesHtml(urls) + Substring(text, cursor, |text|)
      else text
  }

  /** A batch in which one upload fails inserts nothing, even the images
      uploaded before it. */
  lemma FailedUploadAbandonsBatch(text: string, cursor: nat, before: seq<UploadAnswer>, failed: UploadRoute.Reply, after: seq<UploadAnswer>)
    requires failed.status == 400 || failed.status == 500
    ensures InsertImages(text, cursor, before + [AnswerOf(failed)] + after) == text
  {
    assert (before + [AnswerOf(failed)] + after)[|before|] == Rejected;
  }

  // ---------------------------------------------------------------- submit

  /** The editor's draft fields. */
  datatype Draft = Draft(title: string, description: string, category: string, author: string, authorImg: string)

  /** The thumbnail state: `false`, the current URL of the post being
      edited, or a picked file. */
  datatype ImageChoice = NoImage | ExistingUrl(url: string) | Picked(name: string)

  /** The page state a submit reads and resets. `authorImgFile` is the
      picked author file's name, `None` for `false`. */
  datatype AdminState = AdminState(
    activeTab: string,
    editId: Option<string>,
    draft: Draft,
    image: ImageChoice,
    authorImgFile: Option<string>)

  const EmptyDraft := Draft("", "", "Startup", "Anbu", "/profile_icon.png")

  /** `if (editId)`: an existing post is being edited. */
  predicate Editing(s: AdminState) {
    s.editId.Some? && s.editId.value != ""
  }

  /** The form `onSubmitHandler` sends. Appending `false` to a form sends
      the string "false", so a thumbnail that was never picked arrives as a
      string, as does the URL of the post being edited. */
  function SubmittedForm(s: AdminState): (f: BlogRoute.BlogForm)
    ensures Truthy(f.id) <==> Editing(s)
    ensures Editing(s) ==> f.id == Str(s.editId.value)
    ensures !Editing(s) ==> f.id == Absent
    ensures f.image.File? <==> s.image.Picked?
    ensures s.image == NoImage ==> f.image == Str("false")
    ensures s.image.ExistingUrl? ==> f.image == Str(s.image.url)
    ensures s.image.Picked? ==> f.image == File(s.image.name)
    ensures f.authorImgFile.File? <==> s.authorImgFile.Some?
    ensures s.authorImgFile.Some? ==> f.authorImgFile == File(s.authorImgFile.value)
    ensures s.authorImgFile.None? ==> f.authorImgFile == Absent
    ensures f.title == Str(s.draft.title) && f.description == Str(s.draft.description)
    ensures f.category == Str(s.draft.category) && f.author == Str(s.draft.author)
    ensures f.authorImg == Str(s.draft.authorImg)
  {
    var image := match s.image
      case NoImage => Str("false")
      case ExistingUrl(u) => Str(u)
      case Picked(n) => File(n);
    BlogRoute.BlogForm(
      if Editing(s) then Str(s.editId.value) else Absent,
      Str(s.draft.title), Str(s.draft.description), Str(s.draft.category), Str(s.draft.author),
      Str(s.draft.authorImg),
      image,
      if s.authorImgFile.Some? then File(s.authorImgFile.value) else Absent)
  }

  /** What the page learns from the submit request: the reply's `msg` and
      `error` fields, or a rejection of the request. */
  datatype SubmitAnswer = Answer(msg: Option<string>, error: Option<string>) | Threw

  /** The request helper rejects every reply whose status is not 2xx. */
  function SubmitAnswerOf(r: BlogRoute.Reply): (a: SubmitAnswer)
    ensures a.Threw? <==> !(200 <= r.status < 300)
    ensures 200 <= r.status < 300 && r.body.Published? ==> a == Answer(Some(r.body.msg), None)
    ensures 200 <= r.status < 300 && r.body.Done? ==> a == Answer(Some(r.body.msg), None)
    ensures 200 <= r.status < 300 && r.body.Failed? ==> a == Answer(None, Some(r.body.error))
  {
    if !(200 <= r.status < 300) then Threw
    else match r.body
      case Published(msg, _) => Answer(Some(msg), None)
      case Done(msg) => Answer(Some(msg), None)
      case Failed(e) => Answer(None, Some(e))
      case Listed(_, e) => Answer(None, e)
  }

  predicate Succeeded(a: SubmitAnswer) {
    a.Answer? && a.msg.Some? && a.msg.value != ""
  }

  /** The state after the submit's answer: on success the draft, the picked
      files and the edit marker are cleared, and an edit returns to the
      manage tab; otherwise the state is kept for another attempt. */
  function AfterSubmit(s: AdminState, a: SubmitAnswer): (t: AdminState)
    ensures Succeeded(a) ==>
      && t.draft == EmptyDraft
      && t.editId.None? && t.image == NoImage && t.authorImgFile.None?
      && t.activeTab == (if Editing(s) then "manage" else s.activeTab)
    ensures !Succeeded(a) ==> t == s
  {
    if Succeeded(a) then
      AdminState(if Editing(s) then "manage" else s.activeTab, None, EmptyDraft, NoImage, None)
    else s
  }

  /** A new post whose thumbnail was never picked is refused by the server,
      and the draft is kept. */
  lemma NewPostNeedsPickedThumbnail(s: AdminState, st: BlogRoute.Store, newId: BlogRoute.Id, t1: nat, t2: nat, be: BlogRoute.Backend)
    requires !Editing(s) && !s.image.Picked?
    requires newId !in st.docs && be.connectError.None?
    requires BlogRoute.RequiredPresent(SubmittedForm(s))
    ensures BlogRoute.Create(st, SubmittedForm(s), newId, t1, t2, be).reply == BlogRoute.Reply(400, BlogRoute.Failed(BlogRoute.ImageRequired))
    ensures AfterSubmit(s, SubmitAnswerOf(BlogRoute.Create(st, SubmittedForm(s), newId, t1, t2, be).reply)) == s
  {
  }

  /** Saving an edit without picking a new thumbnail keeps the stored one,
      while the author picture takes the draft's string whenever it is not
      empty. A successful save resets the editor and returns to the list. */
  lemma EditKeepsThumbnailButTakesAuthorImg(s: AdminState, st: BlogRoute.Store, t1: nat, t2: nat, be: BlogRoute.Backend)
    requires Editing(s) && !s.image.Picked? && s.authorImgFile.None?
    requires BlogRoute.Update(st, SubmittedForm(s), t1, t2, be).reply.status == 200
    ensures var id := s.editId.value;
      var o := BlogRoute.Update(st, SubmittedForm(s), t1, t2, be);
      && id in st.docs && id in o.store.docs
      && o.store.docs[id].image == st.docs[id].image
      && o.store.docs[id].authorImg == (if s.draft.authorImg != "" then Str(s.draft.authorImg) else st.docs[id].authorImg)
      && o.store.docs[id].title == Str(s.draft.title)
    ensures AfterSubmit(s, SubmitAnswerOf(BlogRoute.Update(st, SubmittedForm(s), t1, t2, be).reply)).activeTab == "manage"
  {
  }
}

=== FILE: blog_item.dfy ===
/** The preview card's plain-text excerpt:
    `description.replace(/<[^>]*>?/gm, '')`. */
module BlogItem {
  import opened Strings

  /** What is left after a tag's opening `<`: everything up to and including
      the next `>`, or the whole rest when no `>` follows, is consumed. */
  function SkipTag(s: string): (r: string)
    ensures |r| <= |s| && r == s[|s| - |r|..]
    ensures '>' !in s ==> r == []
    // exactly the text through the first `>` is consumed
    ensures '>' in s ==> |r| < |s| && s[|s| - |r| - 1] == '>' && '>' !in s[..|s| - |r| - 1]
    decreases |s|
  {
    if s == [] then []
    else if s[0] == '>' then s[1..]
    else
      var r := SkipTag(s[1..]);
      assert '>' in s[1..] ==> s[..|s| - |r| - 1] == [s[0]] + s[1..][..|s| - |r| - 2];
      r
  }

  /** The excerpt: each match of `<[^>]*>?` removed, scanning left to
      right. */
  function StripTags(s: string): (r: string)
    ensures '<' !in r
    ensures IsSubsequence(r, s)
    decreases |s|
  {
    if s == [] then []
    else if s[0] == '<' then
      var rest := SkipTag(s[1..]);
      var r := StripTags(rest);
      assert s[1..][|s[1..]| - |rest|..] == s[|s| - |rest|..];
      SubsequenceOfSuffix(r, s, |s| - |rest|);
      r
    else
      var r := [s[0]] + StripTags(s[1..]);
      assert r[0] == s[0] && r[1..] == StripTags(s[1..]);
      r
  }

  lemma {:induction false} SkipTagAppend(x: string, y: string)
    requires '>' in x
    ensures SkipTag(x + y) == SkipTag(x) + y
    decreases |x|
  {
    assert (x + y)[0] == x[0];
    if x[0] == '>' {
      assert (x + y)[1..] == x[1..] + y;
    } else {
      assert (x + y)[1..] == x[1..] + y;
      SkipTagAppend(x[1..], y);
    }
  }

  lemma {:induction false} SkipTagThroughClose(t: string, q: string)
    requires '>' !in t
    ensures SkipTag(t + ['>'] + q) == q
    decreases |t|
  {
    var s := t + ['>'] + q;
    if t == [] {
      assert s[0] == '>' && s[1..] == q;
    } else {
      assert s[0] == t[0] && s[1..] == t[1..] + ['>'] + q;
      SkipTagThroughClose(t[1..], q);
    }
  }

  lemma StripPlainHead(c: char, t: string)
    requires c != '<'
    ensures StripTags([c] + t) == [c] + StripTags(t)
  {
    assert ([c] + t)[0] == c && ([c] + t)[1..] == t;
  }

  lemma SplitHead(p: string, q: string)
    requires p != []
    ensures p + q == [p[0]] + (p[1..] + q)
    ensures forall t: string :: [p[0]] + (p[1..] + t) == p + t
  {
    forall t: string
      ensures [p[0]] + (p[1..] + t) == p + t
    {
      assert [p[0]] + p[1..] == p;
    }
  }

  /** Text before the first `<` is kept verbatim, including any stray `>`. */
  lemma {:induction false} StripKeepsPlainPrefix(p: string, q: string)
    requires '<' !in p
    ensures StripTags(p + q) == p + StripTags(q)
    decreases |p|
  {
    if p == [] {
      assert p + q == q;
    } else {
      SplitHead(p, q);
      assert p[0] != '<' && '<' !in p[1..];
      StripPlainHead(p[0], p[1..] + q);
      StripKeepsPlainPrefix(p[1..], q);
    }
  }

  /** Text without `<` is returned unchanged. */
  lemma StripIdentity(s: string)
    requires '<' !in s
    ensures StripTags(s) == s
  {
    StripKeepsPlainPrefix(s, []);
    assert s + [] == s;
  }

  /** Stripping twice removes nothing more. */
  lemma StripIdempotent(s: string)
    ensures StripTags(StripTags(s)) == StripTags(s)
  {
    StripIdentity(StripTags(s));
  }

  lemma StripOpenHead(t: string)
    ensures StripTags(['<'] + t) == StripTags(SkipTag(t))
  {
    assert (['<'] + t)[0] == '<' && (['<'] + t)[1..] == t;
  }

  lemma RegroupTag(p: string, t: string, q: string)
    ensures p + ['<'] + t + ['>'] + q == p + (['<'] + (t + ['>'] + q))
  {
  }

  /** A complete tag disappears with its brackets; the text around it
      stays. */
  lemma StripRemovesClosedTag(p: string, t: string, q: string)
    requires '<' !in p && '>' !in t
    ensures StripTags(p + ['<'] + t + ['>'] + q) == p + StripTags(q)
  {
    RegroupTag(p, t, q);
    StripKeepsPlainPrefix(p, ['<'] + (t + ['>'] + q));
    StripOpenHead(t + ['>'] + q);
    SkipTagThroughClose(t, q);
  }

  /** A `<` that is never closed deletes everything after it. */
  lemma {:induction false} StripUnterminated(p: string, t: string)
    requires '>' !in t
    ensures StripTags(p + ['<'] + t) == StripTags(p)
    decreases |p|
  {
    var s := p + ['<'] + t;
    if p == [] {
      assert s[0] == '<' && s[1..] == t;
    } else if p[0] != '<' {
      assert s[0] == p[0] && s[1..] == p[1..] + ['<'] + t;
      StripUnterminated(p[1..], t);
    } else {
      assert s[0] == '<' && s[1..] == p[1..] + (['<'] + t);
      if '>' in p[1..] {
        SkipTagAppend(p[1..], ['<'] + t);
        assert SkipTag(p[1..]) + (['<'] + t) == SkipTag(p[1..]) + ['<'] + t;
        StripUnterminated(SkipTag(p[1..]), t);
      } else {
        assert '>' !in p[1..] + (['<'] + t);
      }
    }
  }

  /** How the definition of `StripTags` unfolds at position `i` of `s`. */
  lemma StripAt(s: string, i: nat)
    requires i < |s|
    ensures s[i] != '<' ==> StripTags(s[i..]) == [s[i]] + StripTags(s[i + 1..])
    ensures s[i] == '<' ==> StripTags(s[i..]) == StripTags(SkipTag(s[i + 1..]))
  {
    assert s[i..][0] == s[i] && s[i..][1..] == s[i + 1..];
  }

  /** Skipping from `a` passes over text without `>` up to `b`. */
  lemma {:induction false} SkipTagRun(s: string, a: nat, b: nat)
    requires a <= b <= |s|
    requires forall k :: a <= k < b ==> s[k] != '>'
    ensures SkipTag(s[a..]) == SkipTag(s[b..])
    decreases b - a
  {
    if a < b {
      assert s[a..][0] == s[a] && s[a..][1..] == s[a + 1..];
      SkipTagRun(s, a + 1, b);
    }
  }

  /** The position just past the tag whose `<` is at `i`. */
  method TagEnd(s: string, i: nat) returns (j: nat)
    requires i < |s|
    ensures i < j <= |s|
    ensures SkipTag(s[i + 1..]) == s[j..]
  {
    j := i + 1;
    while j < |s| && s[j] != '>'
      invariant i < j <= |s|
      invariant forall k :: i + 1 <= k < j ==> s[k] != '>'
    {
      j := j + 1;
    }
    TagClosedAt(s, i, j);
    if j < |s| {
      j := j + 1;
    }
  }

  /** Where a scan from `i + 1` stops: at the first `>`, or at the end. */
  lemma TagClosedAt(s: string, i: nat, j: nat)
    requires i < j <= |s|
    requires forall k :: i + 1 <= k < j ==> s[k] != '>'
    requires j < |s| ==> s[j] == '>'
    ensures j < |s| ==> SkipTag(s[i + 1..]) == s[j + 1..]
    ensures j == |s| ==> SkipTag(s[i + 1..]) == []
  {
    SkipTagRun(s, i + 1, j);
    if j < |s| {
      SkipTagAtClose(s, j);
    } else {
      assert s[j..] == [];
    }
  }

  /** A `>` at `j` closes the tag, and skipping resumes just after it. */
  lemma SkipTagAtClose(s: string, j: nat)
    requires j < |s| && s[j] == '>'
    ensures SkipTag(s[j..]) == s[j + 1..]
  {
    assert s[j..][0] == '>' && s[j..][1..] == s[j + 1..];
  }

  lemma AppendShift(r: string, c: char, x: string)
    ensures r + ([c] + x) == (r + [c]) + x
  {
  }

  /** The replacement as a regular-expression engine performs it: at each
      `<`, consume through the next `>` (or to the end), emitting nothing;
      copy every other character. */
  method StripTagsScan(s: string) returns (r: string)
    ensures r == StripTags(s)
  {
    r := "";
    var i := 0;
    while i < |s|
      invariant 0 <= i <= |s|
      invariant r + StripTags(s[i..]) == StripTags(s)
    {
      StripAt(s, i);
      if s[i] == '<' {
        i := TagEnd(s, i);
      } else {
        AppendShift(r, s[i], StripTags(s[i + 1..]));
        r := r + [s[i]];
        i := i + 1;
      }
    }
    assert s[i..] == [];
  }
}

=== FILE: blog_list.dfy ===
/** The reader's post list: how a fetched listing replaces the shown posts,
    and the category filter behind the menu buttons. */
module BlogList {
  import opened Wrappers
  import opened Strings
  import opened Forms
  import BlogRoute

  type Entry = BlogRoute.Entry

  /** `menu === "All" ? true : item.category === menu` */
  predicate Shown(item: Entry, menu: string)
    ensures menu != "All" ==> (Shown(item, menu) <==> item.post.category.Str? && item.post.category.s == menu)
  {
    menu == "All" || item.post.category == Str(menu)
  }

  /** `blogs.filter(...)`: the posts the menu selects, in list order. */
  function Filter(blogs: seq<Entry>, menu: string): (r: seq<Entry>)
    ensures IsSubsequence(r, blogs)
    ensures forall i :: 0 <= i < |r| ==> Shown(r[i], menu)
    decreases |blogs|
  {
    if blogs == [] then []
    else
      var rest := Filter(blogs[1..], menu);
      if Shown(blogs[0], menu) then
        var r := [blogs[0]] + rest;
        assert r[0] == blogs[0] && r[1..] == rest;
        r
      else
        SubsequenceConsRight(rest, blogs[0], blogs[1..]);
        assert [blogs[0]] + blogs[1..] == blogs;
        rest
  }

  /** The "All" button shows the list unchanged. */
  lemma {:induction false} FilterAllIsIdentity(blogs: seq<Entry>)
    ensures Filter(blogs, "All") == blogs
    decreases |blogs|
  {
    if blogs != [] {
      FilterAllIsIdentity(blogs[1..]);
      assert [blogs[0]] + blogs[1..] == blogs;
    }
  }

  /** Any other button keeps every occurrence of a post of that category
      and drops every other post. */
  lemma {:induction false} FilterCounts(blogs: seq<Entry>, menu: string, x: Entry)
    ensures multiset(Filter(blogs, menu))[x] == if Shown(x, menu) then multiset(blogs)[x] else 0
    decreases |blogs|
  {
    if blogs != [] {
      FilterCounts(blogs[1..], menu, x);
      assert blogs == [blogs[0]] + blogs[1..];
      assert multiset(blogs) == multiset([blogs[0]]) + multiset(blogs[1..]);
    }
  }

  /** The selected posts are exactly the listed posts of the chosen
      category. */
  lemma FilterSelectsCategory(blogs: seq<Entry>, menu: string, x: Entry)
    requires menu != "All"
    ensures x in Filter(blogs, menu) <==> x in blogs && x.post.category == Str(menu)
  {
    FilterCounts(blogs, menu, x);
    assert x in Filter(blogs, menu) <==> x in multiset(Filter(blogs, menu));
    assert x in blogs <==> x in multiset(blogs);
  }

  /** What `fetchBlogs` learns: the reply's `blogs` field, or a failed
      request. */
  datatype FetchAnswer = Fetched(blogs: Option<seq<Entry>>) | FetchFailed

  /** `if (response.data && response.data.blogs) setBlogs(...)`: an array is
      truthy even when empty, so any reply carrying `blogs` replaces the
      list; otherwise the previous list stays. */
  function ApplyFetch(prev: seq<Entry>, a: FetchAnswer): (next: seq<Entry>)
    ensures a.Fetched? && a.blogs.Some? ==> next == a.blogs.value
    ensures !(a.Fetched? && a.blogs.Some?) ==> next == prev
  {
    if a.Fetched? && a.blogs.Some? then a.blogs.value else prev
  }

  /** The request helper rejects every reply whose status is not 2xx. */
  function FetchAnswerOf(r: BlogRoute.Reply): (a: FetchAnswer)
    ensures 200 <= r.status < 300 && r.body.Listed? ==> a == Fetched(Some(r.body.blogs))
    ensures !(200 <= r.status < 300) ==> a == FetchFailed
  {
    if !(200 <= r.status < 300) then FetchFailed
    else match r.body
      case Listed(blogs, _) => Fetched(Some(blogs))
      case _ => Fetched(None)
  }

  /** When the store is unreachable the reader shows no posts at all: the
      fallback's empty array replaces whatever was shown. */
  lemma StoreOutageEmptiesList(prev: seq<Entry>, st: BlogRoute.Store, be: BlogRoute.Backend)
    requires be.connectError.Some? || be.readError.Some?
    ensures ApplyFetch(prev, FetchAnswerOf(BlogRoute.List(st, be))) == []
  {
  }

  /** Otherwise the reader shows every stored post, in the store's order. */
  lemma FetchShowsStore(prev: seq<Entry>, st: BlogRoute.Store, be: BlogRoute.Backend)
    requires BlogRoute.Valid(st) && be.connectError.None? && be.readError.None?
    ensures var shown := ApplyFetch(prev, FetchAnswerOf(BlogRoute.List(st, be)));
      && |shown| == |st.order|
      && forall i :: 0 <= i < |shown| ==> shown[i] == BlogRoute.Entry(st.order[i], st.docs[st.order[i]])
  {
  }
}

=== FILE: blog_route.dfy ===
/** The post repository: the GET, POST, PUT and DELETE handlers of
    `/api/blog`, each a transition `(store, request) -> (store, reply)`.

    The document store is an abstract map from identifier to post, together
    with the order in which the store lists its documents. The connection
    helper, the store's queries and the blob service are an oracle
    (`Backend`) that either answers or fails with a message. */
module BlogRoute {
  import opened Wrappers
  import opened Strings
  import opened Forms
  import opened Media

  type Id = string

  /** A stored post. The text fields hold exactly the form values the
      handlers passed to the store; `image` is always a blob URL. */
  datatype Post = Post(
    title: FormValue,
    description: FormValue,
    category: FormValue,
    author: FormValue,
    authorImg: FormValue,
    image: string)

  /** A post together with its identifier, as the store lists it. */
  datatype Entry = Entry(id: Id, post: Post)

  /** The collection: its documents by identifier, and the order in which a
      `find({})` lists them (the order of insertion). */
  datatype Store = Store(docs: map<Id, Post>, order: seq<Id>)

  predicate NoDuplicates(s: seq<Id>) {
    forall i, j :: 0 <= i < j < |s| ==> s[i] != s[j]
  }

  /** The listing order names every document exactly once. */
  predicate Valid(st: Store) {
    && NoDuplicates(st.order)
    && (forall id :: id in st.docs ==> id in st.order)
    && (forall id :: id in st.order ==> id in st.docs)
  }

  /** The multipart form of a POST or PUT. */
  datatype BlogForm = BlogForm(
    id: FormValue,
    title: FormValue,
    description: FormValue,
    category: FormValue,
    author: FormValue,
    authorImg: FormValue,
    image: FormValue,
    authorImgFile: FormValue)

  /** What the outside world answers during one request: whether the
      connection helper rejected (and with which message), whether the
      request's read or write query failed, and the blob service. */
  datatype Backend = Backend(
    connectError: Option<string>,
    readError: Option<string>,
    writeError: Option<string>,
    put: string -> PutResult)

  datatype Body =
    | Listed(blogs: seq<Entry>, listError: Option<string>)
    | Published(msg: string, blog: Entry)
    | Done(msg: string)
    | Failed(error: string)

  datatype Reply = Reply(status: nat, body: Body)

  /** The store after the request, the reply, and the keys handed to the
      blob service, in the order the uploads were attempted. */
  datatype Outcome = Outcome(store: Store, reply: Reply, uploads: seq<string>)

  const FallbackError := "Database connection failed - falling back to static data"
  const MissingFields := "Missing required fields (Title, Description, Category, or Author)"
  const ImageRequired := "Blog image file is required"
  const PublishedMsg := "Blog Published Successfully!"
  const ConnectionHint := "Database Connection Failed. " + "Check your internet or MongoDB URI."
  const IdRequired := "Blog ID is required"
  const DeletedMsg := "Blog Deleted Successfully!"
  const DeleteFailed := "Failed to delete blog"
  const NotFound := "Blog not found"
  const UpdatedMsg := "Blog Updated Successfully!"
  const UpdateFailed := "Failed to update blog"
  const DefaultAuthorImg := "/profile_icon.png"

  function Fail(st: Store, status: nat, error: string, uploads: seq<string>): Outcome {
    Outcome(st, Reply(status, Failed(error)), uploads)
  }

  // ---------------------------------------------------------------- GET

  /** The documents named by `order`, in that order. */
  function ListFrom(docs: map<Id, Post>, order: seq<Id>): (r: seq<Entry>)
    ensures forall i :: 0 <= i < |r| ==> r[i].id in docs && r[i].post == docs[r[i].id]
    decreases |order|
  {
    if order == [] then []
    else (if order[0] in docs then [Entry(order[0], docs[order[0]])] else []) + ListFrom(docs, order[1..])
  }

  /** When every listed id names a document, the listing has one entry per
      id, in order. */
  lemma {:induction false} ListFromCovers(docs: map<Id, Post>, order: seq<Id>)
    ensures (forall id :: id in order ==> id in docs) ==>
      && |ListFrom(docs, order)| == |order|
      && forall i :: 0 <= i < |order| ==> ListFrom(docs, order)[i].id == order[i]
    decreases |order|
  {
    if order != [] {
      ListFromCovers(docs, order[1..]);
    }
  }

  /** `GET /api/blog`: every post, in the store's order; when the connection
      or the query fails, an empty list with an advisory error, still 200. */
  function List(st: Store, be: Backend): (r: Reply)
    ensures r.status == 200 && r.body.Listed?
    ensures r.body.listError.Some? <==> be.connectError.Some? || be.readError.Some?
    ensures r.body.listError.Some? ==> r.body.blogs == [] && r.body.listError == Some(FallbackError)
    ensures r.body.listError.None? && Valid(st) ==>
      && |r.body.blogs| == |st.order|
      && forall i :: 0 <= i < |st.order| ==> r.body.blogs[i] == Entry(st.order[i], st.docs[st.order[i]])
  {
    if be.connectError.Some? || be.readError.Some? then Reply(200, Listed([], Some(FallbackError)))
    else
      ListFromCovers(st.docs, st.order);
      Reply(200, Listed(ListFrom(st.docs, st.order), None))
  }

  /** A successful listing names each stored post exactly once. */
  lemma ListNamesEachPostOnce(st: Store, be: Backend)
    requires Valid(st) && be.connectError.None? && be.readError.None?
    ensures var blogs := List(st, be).body.blogs;
      && (forall id :: id in st.docs <==> exists i :: 0 <= i < |blogs| && blogs[i].id == id)
      && (forall i, j :: 0 <= i < j < |blogs| ==> blogs[i].id != blogs[j].id)
      && (forall i :: 0 <= i < |blogs| ==> blogs[i].post == st.docs[blogs[i].id])
  {
    var blogs := List(st, be).body.blogs;
    forall id | id in st.docs
      ensures exists i :: 0 <= i < |blogs| && blogs[i].id == id
    {
      var i :| 0 <= i < |st.order| && st.order[i] == id;
      assert blogs[i].id == id;
    }
  }

  // ---------------------------------------------------------------- errors

  /** The message of a failed POST: connectivity failures, recognised by
      `ENOTFOUND` or `timeout` in the error's text, get a fixed hint; any
      other error is echoed after "Server Error: ". */
  function ServerErrorText(message: string): (r: string)
    ensures r == ConnectionHint <==> Contains(message, "ENOTFOUND") || Contains(message, "timeout")
    ensures r != ConnectionHint ==> r == "Server Error: " + message
  {
    assert ("Server Error: " + message)[0] == 'S' && ConnectionHint[0] == 'D';
    if Contains(message, "ENOTFOUND") || Contains(message, "timeout") then ConnectionHint
    else "Server Error: " + message
  }

  lemma ConnectivityFailuresGetHint(pre: string, post: string)
    ensures ServerErrorText(pre + "ENOTFOUND" + post) == ConnectionHint
    ensures ServerErrorText(pre + "timeout" + post) == ConnectionHint
  {
    ContainsInfix(pre, "ENOTFOUND", post);
    ContainsInfix(pre, "timeout", post);
  }

  // ---------------------------------------------------------------- POST

  /** `!title || !description || !category || !author` is false. */
  predicate RequiredPresent(f: BlogForm) {
    Truthy(f.title) && Truthy(f.description) && Truthy(f.category) && Truthy(f.author)
  }

  /** The store is reachable and the form passes both checks of a POST. */
  predicate Accepted(f: BlogForm, be: Backend) {
    be.connectError.None? && RequiredPresent(f) && f.image.File?
  }

  /** The blob service stores the thumbnail and, when one was sent, the
      author picture. */
  predicate UploadsStored(f: BlogForm, imageTime: nat, authorTime: nat, be: Backend)
    requires f.image.File?
  {
    && be.put(BlogImageKey(imageTime, f.image.name)).Stored?
    && (f.authorImgFile.File? ==> be.put(AuthorImageKey(authorTime, f.authorImgFile.name)).Stored?)
  }

  /** Every step of a POST goes through. */
  predicate CreateSucceeds(f: BlogForm, imageTime: nat, authorTime: nat, be: Backend) {
    Accepted(f, be) && UploadsStored(f, imageTime, authorTime, be) && be.writeError.None?
  }

  function Insert(st: Store, id: Id, p: Post, be: Backend, uploads: seq<string>): Outcome {
    if be.writeError.Some? then Fail(st, 500, ServerErrorText(be.writeError.value), uploads)
    else Outcome(Store(st.docs[id := p], st.order + [id]), Reply(200, Published(PublishedMsg, Entry(id, p))), uploads)
  }

  /** `POST /api/blog`. `newId` is the identifier the store generates for
      the new document; `imageTime` and `authorTime` are the two readings of
      `Date.now()` taken for the thumbnail and the author picture. */
  function Create(st: Store, f: BlogForm, newId: Id, imageTime: nat, authorTime: nat, be: Backend): (o: Outcome)
    requires newId !in st.docs
    // a request that fails leaves the collection as it was
    ensures o.reply.status != 200 ==> o.store == st
    // nothing is uploaded before the form has passed both checks
    ensures o.uploads != [] ==> Accepted(f, be)
    ensures be.connectError.None? && !RequiredPresent(f) ==>
      o.reply == Reply(400, Failed(MissingFields))
    ensures be.connectError.None? && RequiredPresent(f) && !f.image.File? ==>
      o.reply == Reply(400, Failed(ImageRequired))
    ensures o.reply.status in {200, 400, 500}
    // upstream failures answer 500 with the classified message of the error
    ensures be.connectError.Some? ==>
      o.reply == Reply(500, Failed(ServerErrorText(be.connectError.value))) && o.uploads == []
    ensures Accepted(f, be) && be.put(BlogImageKey(imageTime, f.image.name)).PutFailed? ==>
      o.reply == Reply(500, Failed(ServerErrorText(be.put(BlogImageKey(imageTime, f.image.name)).message)))
    ensures (&& Accepted(f, be) && be.put(BlogImageKey(imageTime, f.image.name)).Stored?
             && f.authorImgFile.File? && be.put(AuthorImageKey(authorTime, f.authorImgFile.name)).PutFailed?) ==>
      o.reply == Reply(500, Failed(ServerErrorText(be.put(AuthorImageKey(authorTime, f.authorImgFile.name)).message)))
    ensures Accepted(f, be) && UploadsStored(f, imageTime, authorTime, be) && be.writeError.Some? ==>
      o.reply == Reply(500, Failed(ServerErrorText(be.writeError.value)))
    ensures o.reply.status == 200 <==> CreateSucceeds(f, imageTime, authorTime, be)
    ensures o.reply.status == 200 ==>
      && o.reply.body.Published? && o.reply.body.msg == PublishedMsg && o.reply.body.blog.id == newId
      && var p := o.reply.body.blog.post;
      && o.store.docs == st.docs[newId := p]
      && o.store.order == st.order + [newId]
      && p.title == f.title && p.description == f.description
      && p.category == f.category && p.author == f.author
      && p.image == be.put(BlogImageKey(imageTime, f.image.name)).url
      && p.authorImg == (
           if f.authorImgFile.File? then Str(be.put(AuthorImageKey(authorTime, f.authorImgFile.name)).url)
           else if Truthy(f.authorImg) then f.authorImg
           else Str(DefaultAuthorImg))
      && o.uploads == [BlogImageKey(imageTime, f.image.name)]
           + (if f.authorImgFile.File? then [AuthorImageKey(authorTime, f.authorImgFile.name)] else [])
    ensures Valid(st) ==> Valid(o.store)
  {
    if be.connectError.Some? then Fail(st, 500, ServerErrorText(be.connectError.value), [])
    else if !RequiredPresent(f) then Fail(st, 400, MissingFields, [])
    else if !IsUpload(f.image) then Fail(st, 400, ImageRequired, [])
    else
      var imageKey := BlogImageKey(imageTime, f.image.name);
      match be.put(imageKey)
      case PutFailed(m) => Fail(st, 500, ServerErrorText(m), [imageKey])
      case Stored(imageUrl) =>
        var authorImg := if Truthy(f.authorImg) then f.authorImg else Str(DefaultAuthorImg);
        if IsUpload(f.authorImgFile) then
          var authorKey := AuthorImageKey(authorTime, f.authorImgFile.name);
          match be.put(authorKey)
          case PutFailed(m) => Fail(st, 500, ServerErrorText(m), [imageKey, authorKey])
          case Stored(authorUrl) =>
            Insert(st, newId, Post(f.title, f.description, f.category, f.author, Str(authorUrl), imageUrl), be, [imageKey, authorKey])
        else
          Insert(st, newId, Post(f.title, f.description, f.category, f.author, authorImg, imageUrl), be, [imageKey])
  }

  // ---------------------------------------------------------------- PUT

  /** Every step of a PUT goes through. */
  predicate UpdateSucceeds(st: Store, f: BlogForm, imageTime: nat, authorTime: nat, be: Backend) {
    && be.connectError.None?
    && f.id.Str? && f.id.s != ""
    && be.readError.None?
    && f.id.s in st.docs
    && (f.image.File? ==> be.put(BlogImageKey(imageTime, f.image.name)).Stored?)
    && (f.authorImgFile.File? ==> be.put(AuthorImageKey(authorTime, f.authorImgFile.name)).Stored?)
    && be.writeError.None?
  }

  /** `findByIdAndUpdate(id, updateData)`. */
  function Replace(st: Store, id: Id, p: Post, be: Backend, uploads: seq<string>): Outcome {
    if be.writeError.Some? then Fail(st, 500, UpdateFailed, uploads)
    else Outcome(Store(st.docs[id := p], st.order), Reply(200, Done(UpdatedMsg)), uploads)
  }

  /** The author-picture step of a PUT, once the thumbnail is settled. */
  function UpdateAuthorImg(st: Store, id: Id, f: BlogForm, image: string, authorTime: nat, be: Backend, uploads: seq<string>): Outcome
    requires id in st.docs
  {
    if IsUpload(f.authorImgFile) then
      var authorKey := AuthorImageKey(authorTime, f.authorImgFile.name);
      match be.put(authorKey)
      case PutFailed(_) => Fail(st, 500, UpdateFailed, uploads + [authorKey])
      case Stored(url) =>
        Replace(st, id, Post(f.title, f.description, f.category, f.author, Str(url), image), be, uploads + [authorKey])
    else
      var authorImg := if Truthy(f.authorImg) then f.authorImg else st.docs[id].authorImg;
      Replace(st, id, Post(f.title, f.description, f.category, f.author, authorImg, image), be, uploads)
  }

  /** `PUT /api/blog`: the text fields are overwritten with whatever was
      submitted; the thumbnail changes only for a new file; the author
      picture changes for a new file or a non-empty `authorImg` string. */
  function Update(st: Store, f: BlogForm, imageTime: nat, authorTime: nat, be: Backend): (o: Outcome)
    ensures o.reply.status != 200 ==> o.store == st
    ensures be.connectError.None? && !Truthy(f.id) ==>
      o.reply == Reply(400, Failed(IdRequired)) && o.uploads == []
    ensures be.connectError.None? && be.readError.None? && f.id.Str? && f.id.s != "" && f.id.s !in st.docs ==>
      o.reply == Reply(404, Failed(NotFound)) && o.uploads == []
    // a 400 and a 404 answer only those two cases
    ensures o.reply.status == 400 ==> be.connectError.None? && !Truthy(f.id)
    ensures o.reply.status == 404 ==>
      be.connectError.None? && be.readError.None? && f.id.Str? && f.id.s !in st.docs
    // every other failure is the catch branch's 500
    ensures o.reply.status !in {200, 400, 404} ==> o.reply == Reply(500, Failed(UpdateFailed))
    ensures be.connectError.Some? ==> o.reply == Reply(500, Failed(UpdateFailed)) && o.uploads == []
    ensures o.reply.status == 200 <==> UpdateSucceeds(st, f, imageTime, authorTime, be)
    ensures o.reply.status == 200 ==>
      o.uploads == (if f.image.File? then [BlogImageKey(imageTime, f.image.name)] else [])
        + (if f.authorImgFile.File? then [AuthorImageKey(authorTime, f.authorImgFile.name)] else [])
    ensures o.reply.status == 200 ==>
      && o.reply.body == Done(UpdatedMsg)
      && var id := f.id.s;
      && var prev := st.docs[id];
      && id in o.store.docs
      && var p := o.store.docs[id];
      && o.store == Store(st.docs[id := p], st.order)
      && p.title == f.title && p.description == f.description
      && p.category == f.category && p.author == f.author
      && p.image == (if f.image.File? then be.put(BlogImageKey(imageTime, f.image.name)).url else prev.image)
      && p.authorImg == (
           if f.authorImgFile.File? then Str(be.put(AuthorImageKey(authorTime, f.authorImgFile.name)).url)
           else if Truthy(f.authorImg) then f.authorImg
           else prev.authorImg)
    ensures Valid(st) ==> Valid(o.store)
  {
    if be.connectError.Some? then Fail(st, 500, UpdateFailed, [])
    else if !Truthy(f.id) then Fail(st, 400, IdRequired, [])
    // a file object cannot be cast to a document identifier: the query throws
    else if !f.id.Str? then Fail(st, 500, UpdateFailed, [])
    else if be.readError.Some? then Fail(st, 500, UpdateFailed, [])
    else if f.id.s !in st.docs then Fail(st, 404, NotFound, [])
    else
      var id := f.id.s;
      if IsUpload(f.image) then
        var imageKey := BlogImageKey(imageTime, f.image.name);
        match be.put(imageKey)
        case PutFailed(_) => Fail(st, 500, UpdateFailed, [imageKey])
        case Stored(url) => UpdateAuthorImg(st, id, f, url, authorTime, be, [imageKey])
      else UpdateAuthorImg(st, id, f, st.docs[id].image, authorTime, be, [])
  }

  // ---------------------------------------------------------------- DELETE

  /** `order` without `id`. */
  function Without(order: seq<Id>, id: Id): (r: seq<Id>)
    ensures forall x :: x in r <==> x in order && x != id
    ensures NoDuplicates(order) ==> NoDuplicates(r)
    ensures id !in order ==> r == order
    // the remaining ids keep their relative order
    ensures IsSubsequence(r, order)
    decreases |order|
  {
    if order == [] then []
    else
      var rest := Without(order[1..], id);
      SubsequenceCons(order, rest);
      if order[0] == id then rest
      else
        NoDuplicatesCons(order, rest);
        [order[0]] + rest
  }

  /** Dropping or keeping the head of `order` keeps a subsequence. */
  lemma SubsequenceCons(order: seq<Id>, rest: seq<Id>)
    requires order != [] && IsSubsequence(rest, order[1..])
    ensures IsSubsequence(rest, order)
    ensures IsSubsequence([order[0]] + rest, order)
  {
    SubsequenceConsRight(rest, order[0], order[1..]);
    assert [order[0]] + order[1..] == order;
    var kr := [order[0]] + rest;
    assert kr[0] == order[0] && kr[1..] == rest;
  }

  /** Keeping the head in front of a duplicate-free selection of the tail
      keeps the sequence duplicate-free. */
  lemma NoDuplicatesCons(order: seq<Id>, rest: seq<Id>)
    requires order != []
    requires forall x :: x in rest ==> x in order[1..]
    requires NoDuplicates(order[1..]) ==> NoDuplicates(rest)
    ensures NoDuplicates(order) ==> NoDuplicates([order[0]] + rest)
  {
    if NoDuplicates(order) {
      NoDuplicatesTail(order);
      var r := [order[0]] + rest;
      assert forall j :: 0 < j < |r| ==> r[j] == rest[j - 1] && r[j] in order[1..];
    }
  }

  lemma NoDuplicatesTail(s: seq<Id>)
    requires s != [] && NoDuplicates(s)
    ensures NoDuplicates(s[1..]) && s[0] !in s[1..]
  {
    forall i, j | 0 <= i < j < |s| - 1
      ensures s[1..][i] != s[1..][j]
    {
      assert s[1..][i] == s[i + 1] && s[1..][j] == s[j + 1];
    }
    if s[0] in s[1..] {
      assert false;
    }
  }

  /** `DELETE /api/blog?id=…`: `id` is the query parameter, `None` when it
      is missing. An identifier naming no post still answers success. */
  function Delete(st: Store, id: Option<string>, be: Backend): (o: Outcome)
    ensures o.uploads == []
    ensures o.reply.status != 200 ==> o.store == st
    ensures be.connectError.None? && (id.None? || id == Some("")) ==>
      o.reply == Reply(400, Failed(IdRequired))
    ensures o.reply.status == 400 ==> be.connectError.None? && (id.None? || id == Some(""))
    ensures o.reply.status !in {200, 400} ==> o.reply == Reply(500, Failed(DeleteFailed))
    ensures be.connectError.Some? ==> o.reply == Reply(500, Failed(DeleteFailed))
    ensures o.reply.status == 200 <==>
      be.connectError.None? && id.Some? && id.value != "" && be.writeError.None?
    ensures o.reply.status == 200 ==>
      && o.reply.body == Done(DeletedMsg)
      && id.value !in o.store.docs
      && (forall k :: k in st.docs && k != id.value ==> k in o.store.docs && o.store.docs[k] == st.docs[k])
      && (forall k :: k in o.store.docs ==> k in st.docs)
    // the listing order of the remaining posts is kept
    ensures o.reply.status == 200 ==>
      o.store.order == Without(st.order, id.value) && IsSubsequence(o.store.order, st.order)
    ensures o.reply.status == 200 && Valid(st) && id.value !in st.docs ==> o.store == st
    ensures Valid(st) ==> Valid(o.store)
  {
    if be.connectError.Some? then Fail(st, 500, DeleteFailed, [])
    else if id.None? || id.value == "" then Fail(st, 400, IdRequired, [])
    else if be.writeError.Some? then Fail(st, 500, DeleteFailed, [])
    else Outcome(Store(st.docs - {id.value}, Without(st.order, id.value)), Reply(200, Done(DeletedMsg)), [])
  }
}

=== FILE: decimal.dfy ===
/** The decimal text of a millisecond timestamp, as a template literal
    renders `Date.now()`, and its inverse. */
module Decimal {

  predicate IsDigit(c: char) {
    '0' <= c <= '9'
  }

  predicate AllDigits(s: string) {
    forall i :: 0 <= i < |s| ==> IsDigit(s[i])
  }

  function DigitChar(d: nat): (c: char)
    requires d < 10
    ensures IsDigit(c)
  {
    "0123456789"[d]
  }

  function DigitValue(c: char): (d: nat)
    requires IsDigit(c)
    ensures d < 10
  {
    (c as int - '0' as int) as nat
  }

  /** `${n}` for a non-negative integer: its decimal digits, most
      significant first, without leading zeros. */
  function DecimalString(n: nat): (r: string)
    ensures |r| > 0 && AllDigits(r)
    ensures r[0] == '0' ==> n == 0
    decreases n
  {
    if n < 10 then [DigitChar(n)] else DecimalString(n / 10) + [DigitChar(n % 10)]
  }

  /** Reads a digit string back as a number. */
  function ParseDecimal(s: string): nat
    requires AllDigits(s)
    decreases |s|
  {
    if s == [] then 0 else ParseDecimal(s[..|s| - 1]) * 10 + DigitValue(s[|s| - 1])
  }

  /** Reading the decimal text of a timestamp gives the timestamp back. */
  lemma {:induction false} ParseDecimalString(n: nat)
    ensures ParseDecimal(DecimalString(n)) == n
    decreases n
  {
    var s := DecimalString(n);
    if n < 10 {
      assert s[..|s| - 1] == [];
    } else {
      assert s[..|s| - 1] == DecimalString(n / 10);
      ParseDecimalString(n / 10);
    }
  }

  /** Distinct timestamps have distinct decimal texts. */
  lemma DecimalStringInjective(a: nat, b: nat)
    requires DecimalString(a) == DecimalString(b)
    ensures a == b
  {
    ParseDecimalString(a);
    ParseDecimalString(b);
  }
}

=== FILE: forms.dfy ===
/** Values read from a multipart form with `formData.get(name)`, and the two
    tests the handlers apply to them. */
module Forms {

  /** `formData.get(name)`: `null` when the field is missing, a string for a
      text part, or a `File` (of which only its `name` matters here). */
  datatype FormValue = Absent | Str(s: string) | File(name: string)

  /** JavaScript truthiness of a form value: `null` and `""` are falsy, every
      other string and every `File` object is truthy. */
  predicate Truthy(v: FormValue) {
    !(v.Absent? || v == Str(""))
  }

  /** `v && typeof v !== "string"`: the value is an uploaded file. Its
      negation is the handlers' rejection test `!v || typeof v === "string"`. */
  predicate IsUpload(v: FormValue) {
    Truthy(v) && !v.Str?
  }

  lemma UploadIsFile(v: FormValue)
    ensures IsUpload(v) <==> v.File?
  {
  }
}

=== FILE: login_route.dfy ===
/** `/api/login`: the credential check that issues the admin session
    cookie, and the logout that clears it. */
module LoginRoute {
  import opened Wrappers

  /** The deployment's configuration: `ADMIN_USERNAME`, `ADMIN_PASSWORD` and
      `NODE_ENV`, each `None` when unset. */
  datatype Env = Env(adminUsername: Option<string>, adminPassword: Option<string>, nodeEnv: Option<string>)

  /** The JSON body's `username` and `password`, `None` when omitted. */
  datatype Credentials = Credentials(username: Option<string>, password: Option<string>)

  /** The options passed to `response.cookies.set`, `None` where the call
      does not mention the attribute. */
  datatype CookieOptions = CookieOptions(
    httpOnly: Option<bool>,
    secure: Option<bool>,
    sameSite: Option<string>,
    maxAge: Option<int>,
    path: Option<string>)

  datatype SetCookie = SetCookie(name: string, value: string, options: CookieOptions)

  datatype Body = Success | Failed(error: string)

  datatype Reply = Reply(status: nat, body: Body, cookie: Option<SetCookie>)

  const SessionCookie := "admin_session"
  const SessionMarker := "true"
  const InvalidCredentials := "Invalid credentials"
  /** Twenty-four hours, in seconds. */
  const SessionLifetime := 60 * 60 * 24

  /** `POST /api/login`: strict equality of both fields with the configured
      secrets, where an omitted field equals an unset secret. */
  function Login(c: Credentials, env: Env): (r: Reply)
    ensures r.status == 200 <==> c.username == env.adminUsername && c.password == env.adminPassword
    ensures r.status == 200 ==>
      && r.body == Success
      && r.cookie.Some?
      && var ck := r.cookie.value;
      && ck.name == "admin_session" && ck.value == "true"
      && ck.options.httpOnly == Some(true)
      && ck.options.sameSite == Some("strict")
      && ck.options.maxAge == Some(86400)
      && ck.options.path == Some("/")
      && ck.options.secure.Some?
      && (ck.options.secure.value <==> env.nodeEnv == Some("production"))
    ensures r.status != 200 ==> r == Reply(401, Failed(InvalidCredentials), None)
  {
    if c.username == env.adminUsername && c.password == env.adminPassword then
      var options := CookieOptions(Some(true), Some(env.nodeEnv == Some("production")), Some("strict"), Some(SessionLifetime), Some("/"));
      Reply(200, Success, Some(SetCookie(SessionCookie, SessionMarker, options)))
    else
      Reply(401, Failed(InvalidCredentials), None)
  }

  /** When neither secret is configured, a body that omits both fields is
      accepted. */
  lemma UnsetSecretsAcceptOmittedFields(nodeEnv: Option<string>)
    ensures Login(Credentials(None, None), Env(None, None, nodeEnv)).status == 200
  {
  }

  /** `DELETE /api/login`: always succeeds and overwrites the session cookie
      with an empty value that expires at once. */
  function Logout(): (r: Reply)
    ensures r.status == 200 && r.body == Success
    ensures r.cookie.Some? && r.cookie.value.name == "admin_session" && r.cookie.value.value == ""
    ensures r.cookie.value.options.maxAge == Some(0)
  {
    Reply(200, Success, Some(SetCookie(SessionCookie, "", CookieOptions(None, None, None, Some(0), None))))
  }
}

=== FILE: media.dfy ===
/** The media store adapter: how an uploaded file's storage key is built
    from a clock reading and the file's name, and what a blob `put` answers.
    The blob service itself is an uninterpreted function from key to result. */
module Media {
  import opened Strings
  import opened Decimal

  /** The answer of the blob service's `put(key, file)`: the public URL of
      the stored object, or a rejection carrying the error's message. */
  datatype PutResult = Stored(url: string) | PutFailed(message: string)

  /** The suffix of `s` left after its leading whitespace run. */
  function SkipWhitespace(s: string): (r: string)
    ensures |r| <= |s| && r == s[|s| - |r|..]
    ensures r == [] || !IsWhitespace(r[0])
    decreases |s|
  {
    if s != [] && IsWhitespace(s[0]) then SkipWhitespace(s[1..]) else s
  }

  /** `name.replace(/\s+/g, '_')`: every maximal run of whitespace becomes a
      single underscore; every other character is kept in place. */
  function NormalizeName(s: string): (r: string)
    ensures NoWhitespace(r)
    ensures |r| <= |s|
    decreases |s|
  {
    if s == [] then []
    else if IsWhitespace(s[0]) then "_" + NormalizeName(SkipWhitespace(s[1..]))
    else [s[0]] + NormalizeName(s[1..])
  }

  /** The characters of `s` that are neither whitespace nor an underscore,
      in order. */
  function Visible(s: string): string
    decreases |s|
  {
    if s == [] then []
    else (if IsWhitespace(s[0]) || s[0] == '_' then [] else [s[0]]) + Visible(s[1..])
  }

  lemma {:induction false} VisibleSkipWhitespace(s: string)
    ensures Visible(SkipWhitespace(s)) == Visible(s)
    decreases |s|
  {
    if s != [] && IsWhitespace(s[0]) {
      VisibleSkipWhitespace(s[1..]);
    }
  }

  /** Normalising keeps every character that is neither whitespace nor an
      underscore, in order, and introduces no other such character. */
  lemma {:induction false} NormalizeKeepsVisible(s: string)
    ensures Visible(NormalizeName(s)) == Visible(s)
    decreases |s|
  {
    if s == [] {
    } else if IsWhitespace(s[0]) {
      var rest := SkipWhitespace(s[1..]);
      var u := "_" + NormalizeName(rest);
      assert u[0] == '_' && u[1..] == NormalizeName(rest);
      NormalizeKeepsVisible(rest);
      VisibleSkipWhitespace(s[1..]);
    } else {
      var u := [s[0]] + NormalizeName(s[1..]);
      assert u[0] == s[0] && u[1..] == NormalizeName(s[1..]);
      NormalizeKeepsVisible(s[1..]);
    }
  }

  /** A name without whitespace is stored under its own spelling. */
  lemma {:induction false} NormalizeIdentity(s: string)
    requires NoWhitespace(s)
    ensures NormalizeName(s) == s
    decreases |s|
  {
    if s != [] {
      assert !IsWhitespace(s[0]);
      NormalizeIdentity(s[1..]);
    }
  }

  lemma NormalizeIdempotent(s: string)
    ensures NormalizeName(NormalizeName(s)) == NormalizeName(s)
  {
    NormalizeIdentity(NormalizeName(s));
  }

  /** How the definition of `NormalizeName` unfolds at position `i` of `s`. */
  lemma NormalizeAt(s: string, i: nat)
    requires i < |s|
    ensures !IsWhitespace(s[i]) ==> NormalizeName(s[i..]) == [s[i]] + NormalizeName(s[i + 1..])
    ensures IsWhitespace(s[i]) ==> NormalizeName(s[i..]) == "_" + NormalizeName(SkipWhitespace(s[i + 1..]))
  {
    assert s[i..][0] == s[i] && s[i..][1..] == s[i + 1..];
  }

  /** Skipping from `a` passes over a run of whitespace that ends at `b`. */
  lemma {:induction false} SkipWhitespaceRun(s: string, a: nat, b: nat)
    requires a <= b <= |s|
    requires forall k :: a <= k < b ==> IsWhitespace(s[k])
    requires b == |s| || !IsWhitespace(s[b])
    ensures SkipWhitespace(s[a..]) == s[b..]
    decreases b - a
  {
    if a < b {
      assert s[a..][0] == s[a] && s[a..][1..] == s[a + 1..];
      SkipWhitespaceRun(s, a + 1, b);
    } else if b < |s| {
      assert s[b..][0] == s[b];
    }
  }

  /** The end of the whitespace run that starts at `i`. */
  method RunEnd(s: string, i: nat) returns (j: nat)
    requires i < |s|
    ensures i < j <= |s|
    ensures SkipWhitespace(s[i + 1..]) == s[j..]
  {
    j := i + 1;
    while j < |s| && IsWhitespace(s[j])
      invariant i < j <= |s|
      invariant forall k :: i + 1 <= k < j ==> IsWhitespace(s[k])
    {
      j := j + 1;
    }
    SkipWhitespaceRun(s, i + 1, j);
  }

  /** The global replacement as a regular-expression engine performs it:
      scan left to right, and at each whitespace character consume the
      whole run and emit one underscore. */
  method ReplaceWhitespaceRuns(s: string) returns (r: string)
    ensures r == NormalizeName(s)
  {
    r := "";
    var i := 0;
    while i < |s|
      invariant 0 <= i <= |s|
      invariant r + NormalizeName(s[i..]) == NormalizeName(s)
    {
      NormalizeAt(s, i);
      if IsWhitespace(s[i]) {
        var j := RunEnd(s, i);
        assert r + NormalizeName(s[i..]) == (r + "_") + NormalizeName(s[j..]);
        r := r + "_";
        i := j;
      } else {
        assert r + NormalizeName(s[i..]) == (r + [s[i]]) + NormalizeName(s[i + 1..]);
        r := r + [s[i]];
        i := i + 1;
      }
    }
    assert s[i..] == [];
  }

  lemma DigitsHaveNoWhitespace(d: string)
    requires AllDigits(d)
    ensures NoWhitespace(d)
  {
  }

  /** `${folder}${Date.now()}_${rest}`: the shape of every key the
      handlers hand to the blob service. */
  function StorageKey(folder: string, time: nat, rest: string): (k: string)
    ensures StartsWith(k, folder)
    ensures |k| > |folder| + |rest| && k[|k| - |rest|..] == rest
    ensures NoWhitespace(folder) && NoWhitespace(rest) ==> NoWhitespace(k)
  {
    DigitsHaveNoWhitespace(DecimalString(time));
    folder + DecimalString(time) + "_" + rest
  }

  /** `blogs/${Date.now()}_${name}`: the key of a post's thumbnail. */
  function BlogImageKey(time: nat, fileName: string): (k: string)
    ensures StartsWith(k, "blogs/") && NoWhitespace(k)
    ensures |k| > |NormalizeName(fileName)| && k[|k| - |NormalizeName(fileName)|..] == NormalizeName(fileName)
  {
    assert NoWhitespace("blogs/");
    StorageKey("blogs/", time, NormalizeName(fileName))
  }

  /** `authors/${Date.now()}_author_${name}`: the key of an author
      picture. */
  function AuthorImageKey(time: nat, fileName: string): (k: string)
    ensures StartsWith(k, "authors/") && NoWhitespace(k)
    ensures |k| > |NormalizeName(fileName)| + 7 && k[|k| - |NormalizeName(fileName)| - 7..] == "author_" + NormalizeName(fileName)
  {
    assert NoWhitespace("authors/") && NoWhitespace("author_" + NormalizeName(fileName));
    StorageKey("authors/", time, "author_" + NormalizeName(fileName))
  }

  /** `description/${Date.now()}_${name}`: the key of an image placed in an
      article body. */
  function DescriptionImageKey(time: nat, fileName: string): (k: string)
    ensures StartsWith(k, "description/") && NoWhitespace(k)
    ensures |k| > |NormalizeName(fileName)| && k[|k| - |NormalizeName(fileName)|..] == NormalizeName(fileName)
  {
    assert NoWhitespace("description/");
    StorageKey("description/", time, NormalizeName(fileName))
  }

  lemma PrefixCancel(p: string, a: string, b: string)
    requires p + a == p + b
    ensures a == b
  {
    assert a == (p + a)[|p|..];
    assert b == (p + b)[|p|..];
  }

  /** In a digit string followed by an underscore, that underscore is the
      first one. */
  lemma FirstUnderscore(d: string, x: string)
    requires AllDigits(d)
    ensures (d + "_" + x)[|d|] == '_'
    ensures forall i :: 0 <= i < |d| ==> (d + "_" + x)[i] != '_'
  {
  }

  /** A digit string followed by an underscore can be split off unambiguously. */
  lemma SplitAfterDigits(d1: string, x1: string, d2: string, x2: string)
    requires AllDigits(d1) && AllDigits(d2)
    requires d1 + "_" + x1 == d2 + "_" + x2
    ensures d1 == d2 && x1 == x2
  {
    var k := d1 + "_" + x1;
    FirstUnderscore(d1, x1);
    FirstUnderscore(d2, x2);
    assert |d1| == |d2|;
    assert d1 == k[..|d1|] && d2 == k[..|d2|];
    assert x1 == k[|d1| + 1..] && x2 == (d2 + "_" + x2)[|d2| + 1..];
  }

  lemma StorageKeyShape(folder: string, t: nat, r: string)
    ensures StorageKey(folder, t, r) == folder + (DecimalString(t) + "_" + r)
  {
    var d := DecimalString(t);
    assert folder + d + "_" + r == folder + (d + "_" + r);
  }

  /** Within one folder, a key determines the clock reading and the rest of
      the name it was built from. */
  lemma StorageKeyInjective(folder: string, t1: nat, r1: string, t2: nat, r2: string)
    requires StorageKey(folder, t1, r1) == StorageKey(folder, t2, r2)
    ensures t1 == t2 && r1 == r2
  {
    var d1, d2 := DecimalString(t1), DecimalString(t2);
    StorageKeyShape(folder, t1, r1);
    StorageKeyShape(folder, t2, r2);
    PrefixCancel(folder, d1 + "_" + r1, d2 + "_" + r2);
    SplitAfterDigits(d1, r1, d2, r2);
    DecimalStringInjective(t1, t2);
  }

  /** Two files of the same kind share a key only when they were stored at
      the same millisecond under names that normalise alike. */
  lemma ImageKeysInjective(t1: nat, n1: string, t2: nat, n2: string)
    ensures BlogImageKey(t1, n1) == BlogImageKey(t2, n2) ==> t1 == t2 && NormalizeName(n1) == NormalizeName(n2)
    ensures AuthorImageKey(t1, n1) == AuthorImageKey(t2, n2) ==> t1 == t2 && NormalizeName(n1) == NormalizeName(n2)
    ensures DescriptionImageKey(t1, n1) == DescriptionImageKey(t2, n2) ==> t1 == t2 && NormalizeName(n1) == NormalizeName(n2)
  {
    var x1, x2 := NormalizeName(n1), NormalizeName(n2);
    if BlogImageKey(t1, n1) == BlogImageKey(t2, n2) {
      StorageKeyInjective("blogs/", t1, x1, t2, x2);
    }
    if AuthorImageKey(t1, n1) == AuthorImageKey(t2, n2) {
      StorageKeyInjective("authors/", t1, "author_" + x1, t2, "author_" + x2);
      PrefixCancel("author_", x1, x2);
    }
    if DescriptionImageKey(t1, n1) == DescriptionImageKey(t2, n2) {
      StorageKeyInjective("description/", t1, x1, t2, x2);
    }
  }

  /** The three folders never share a key. */
  lemma FoldersDisjoint(t1: nat, n1: string, t2: nat, n2: string, t3: nat, n3: string)
    ensures BlogImageKey(t1, n1) != AuthorImageKey(t2, n2)
    ensures BlogImageKey(t1, n1) != DescriptionImageKey(t3, n3)
    ensures AuthorImageKey(t2, n2) != DescriptionImageKey(t3, n3)
  {
    assert BlogImageKey(t1, n1)[0] == 'b';
    assert AuthorImageKey(t2, n2)[0] == 'a';
    assert DescriptionImageKey(t3, n3)[0] == 'd';
  }
}

=== FILE: middleware.dfy ===
/** The route guard that runs before admin pages are served. */
module Middleware {
  import opened Wrappers
  import opened Strings

  datatype Decision = Redirect(location: string) | Continue

  const LoginPath := "/login"

  /** `path.startsWith('/admin')`: a plain prefix test. */
  predicate IsProtectedPath(path: string) {
    StartsWith(path, "/admin")
  }

  /** `request.cookies.get('admin_session')?.value === 'true'`, where
      `session` is that cookie's value, `None` when there is no such cookie. */
  predicate IsAdmin(session: Option<string>) {
    session == Some("true")
  }

  /** The `middleware` function. */
  function Guard(path: string, session: Option<string>): (d: Decision)
    ensures IsProtectedPath(path) && session.None? ==> d == Redirect("/login")
    ensures IsProtectedPath(path) && session.Some? && session.value != "true" ==> d == Redirect("/login")
    ensures session == Some("true") ==> d == Continue
    ensures !StartsWith(path, "/admin") ==> d == Continue
  {
    if IsProtectedPath(path) && !IsAdmin(session) then Redirect(LoginPath) else Continue
  }

  /** The paths the `/admin/:path*` matcher selects: `/admin` itself and
      everything below it. */
  predicate Matched(path: string) {
    path == "/admin" || StartsWith(path, "/admin/")
  }

  /** A request as the framework handles it: the guard runs only on matched
      paths; every other request continues. */
  function Handle(path: string, session: Option<string>): (d: Decision)
    ensures !Matched(path) ==> d == Continue
    ensures Matched(path) ==> (d == Continue <==> session == Some("true"))
  {
    if Matched(path) then Guard(path, session) else Continue
  }

  /** Every path the matcher selects passes the guard's prefix test, so
      the guard redirects all of them unless the session is set. */
  lemma MatchedPathsAreProtected(path: string)
    requires Matched(path)
    ensures IsProtectedPath(path)
  {
    assert path[..6] == "/admin";
  }

  /** The prefix test alone also covers paths such as "/administrator",
      but the matcher never hands them to the guard. */
  lemma PrefixTestIsLooserThanMatcher()
    ensures Guard("/administrator", None) == Redirect("/login")
    ensures !Matched("/administrator")
    ensures Handle("/administrator", None) == Continue
  {
    assert "/administrator"[..6] == "/admin";
    assert "/administrator"[..7][6] == 'i' && "/admin/"[6] == '/';
  }
}

=== FILE: strings.dfy ===
/** String and sequence vocabulary shared by the handlers and the pages:
    JavaScript's `startsWith`, `includes` and `\s`, and the subsequence
    relation used to say that a transform only deletes characters. */
module Strings {

  /** `s.startsWith(p)` */
  predicate StartsWith(s: string, p: string) {
    |p| <= |s| && s[..|p|] == p
  }

  /** `s.includes(sub)`: `sub` occurs somewhere in `s`. */
  predicate Contains(s: string, sub: string)
    decreases |s|
  {
    StartsWith(s, sub) || (|s| > 0 && Contains(s[1..], sub))
  }

  /** A character matched by the `\s` class of JavaScript regular expressions:
      the ASCII blanks, the no-break spaces, the Unicode space separators,
      the line and paragraph separators and the byte-order mark. */
  predicate IsWhitespace(c: char) {
    || c == ' ' || c == '\t' || c == '\n' || c == '\U{000B}' || c == '\U{000C}' || c == '\r'
    || c == '\U{00A0}' || c == '\U{1680}' || ('\U{2000}' <= c <= '\U{200A}')
    || c == '\U{2028}' || c == '\U{2029}' || c == '\U{202F}' || c == '\U{205F}'
    || c == '\U{3000}' || c == '\U{FEFF}'
  }

  predicate NoWhitespace(s: string) {
    forall i :: 0 <= i < |s| ==> !IsWhitespace(s[i])
  }

  /** `a` can be obtained from `b` by deleting elements, keeping the order
      of the rest. */
  predicate IsSubsequence<T(==)>(a: seq<T>, b: seq<T>)
    decreases |b|
  {
    if a == [] then true
    else if b == [] then false
    else if a[0] == b[0] then IsSubsequence(a[1..], b[1..])
    else IsSubsequence(a, b[1..])
  }

  /** Prepending an element to the larger sequence keeps a subsequence. */
  lemma {:induction false} SubsequenceConsRight<T>(a: seq<T>, x: T, b: seq<T>)
    requires IsSubsequence(a, b)
    ensures IsSubsequence(a, [x] + b)
    decreases |a| + |b| + 1, 1
  {
    var xb := [x] + b;
    assert xb[1..] == b;
    if a != [] && a[0] == x {
      SubsequenceDropHead(a, b);
    }
  }

  /** Dropping the first element of the smaller sequence keeps a subsequence. */
  lemma {:induction false} SubsequenceDropHead<T>(a: seq<T>, b: seq<T>)
    requires a != [] && IsSubsequence(a, b)
    ensures IsSubsequence(a[1..], b)
    decreases |a| + |b|, 0
  {
    assert b != [];
    if a[0] == b[0] {
      SubsequenceConsRight(a[1..], b[0], b[1..]);
      assert [b[0]] + b[1..] == b;
    } else {
      SubsequenceDropHead(a, b[1..]);
      SubsequenceConsRight(a[1..], b[0], b[1..]);
      assert [b[0]] + b[1..] == b;
    }
  }

  /** A subsequence of a suffix is a subsequence of the whole. */
  lemma {:induction false} SubsequenceOfSuffix<T>(a: seq<T>, b: seq<T>, k: nat)
    requires k <= |b| && IsSubsequence(a, b[k..])
    ensures IsSubsequence(a, b)
    decreases k
  {
    if k > 0 {
      SubsequenceConsRight(a, b[k - 1], b[k..]);
      assert [b[k - 1]] + b[k..] == b[k - 1..];
      SubsequenceOfSuffix(a, b, k - 1);
    }
  }

  /** Whatever surrounds it, a string that has `sub` in it contains `sub`. */
  lemma {:induction false} ContainsInfix(pre: string, sub: string, post: string)
    ensures Contains(pre + sub + post, sub)
    decreases |pre|
  {
    var s := pre + sub + post;
    if pre == [] {
      assert s[..|sub|] == sub;
    } else {
      assert s[1..] == pre[1..] + sub + post;
      ContainsInfix(pre[1..], sub, post);
    }
  }
}

=== FILE: upload_route.dfy ===
/** `POST /api/upload`: stores one image for an article body under the
    `description/` folder and answers its public URL. */
module UploadRoute {
  import opened Strings
  import opened Forms
  import opened Media

  datatype Body = Uploaded(msg: string, url: string) | Failed(error: string)

  datatype Reply = Reply(status: nat, body: Body)

  /** The reply, and the keys handed to the blob service. */
  datatype Outcome = Outcome(reply: Reply, uploads: seq<string>)

  const NoImage := "No image file provided"
  const UploadedMsg := "Image uploaded successfully!"
  const UploadFailed := "Server Error during upload"

  /** `image` is the form's `image` field, `now` the reading of
      `Date.now()`, and `put` the blob service. */
  function Upload(image: FormValue, now: nat, put: string -> PutResult): (o: Outcome)
    ensures !image.File? ==> o == Outcome(Reply(400, Failed(NoImage)), [])
    ensures image.File? ==>
      && o.uploads == [DescriptionImageKey(now, image.name)]
      && StartsWith(o.uploads[0], "description/") && NoWhitespace(o.uploads[0])
    ensures o.reply.status == 200 <==> image.File? && put(DescriptionImageKey(now, image.name)).Stored?
    ensures o.reply.status == 200 ==>
      o.reply.body == Uploaded(UploadedMsg, put(DescriptionImageKey(now, image.name)).url)
    ensures image.File? && put(DescriptionImageKey(now, image.name)).PutFailed? ==>
      o.reply == Reply(500, Failed(UploadFailed))
  {
    if !IsUpload(image) then Outcome(Reply(400, Failed(NoImage)), [])
    else
      var key := DescriptionImageKey(now, image.name);
      match put(key)
      case PutFailed(_) => Outcome(Reply(500, Failed(UploadFailed)), [key])
      case Stored(url) => Outcome(Reply(200, Uploaded(UploadedMsg, url)), [key])
  }

  /** Two uploads at different milliseconds never overwrite each other, and
      neither do two files whose names differ after normalisation. */
  lemma DistinctUploadsDistinctKeys(image1: FormValue, t1: nat, image2: FormValue, t2: nat, put: string -> PutResult)
    requires image1.File? && image2.File?
    requires t1 != t2 || NormalizeName(image1.name) != NormalizeName(image2.name)
    ensures Upload(image1, t1, put).uploads != Upload(image2, t2, put).uploads
  {
    if DescriptionImageKey(t1, image1.name) == DescriptionImageKey(t2, image2.name) {
      ImageKeysInjective(t1, image1.name, t2, image2.name);
    }
  }
}

=== FILE: wrappers.dfy ===
/** The optional value used throughout the model for JavaScript's
    `undefined`/`null` versus a present value. */
module Wrappers {

  datatype Option<+T> = None | Some(value: T)
}
